=== FILE: README.md ===
# Time of day and interval timers, modelled in Dafny

This project models the arithmetic core of the BSD kernel's time-of-day and
per-process interval-timer support, `sys/kern/kern_time.c`, and proves it
correct. It covers:

- the `struct timeval` helpers `timevalfix`, `timevaladd` and `timevalsub`;
- the validation of timer values (`itimerfix`);
- the per-tick countdown of the virtual and profiling timers, with its
  drift-free reload (`itimerdecr`);
- the real-time timer, which is kept as an absolute deadline. `setitimer`
  and `getitimer` convert between that deadline and a relative value, and
  `realitexpire` folds all missed periods into one SIGALRM;
- clock slewing (`adjtime`), with the clock interrupt's per-tick use of
  the stored correction;
- setting the clock (`settimeofday`), which moves the boot-time and
  run-time origins together with the time.

Each system call is a pure function over immutable values. A call that
can change state (`SetItimer`, `AdjTime`, `SetTimeOfDay`) returns an
`Outcome`: the error number (`None` on success), the state after the call,
and the call's output. `GetItimer` changes nothing and returns a `Result`.
The expiry callout `RealItExpire` is a method, because its catch-up is a
loop. The kernel globals `tick`, `tickadj` and `securelevel`, and the
result of `suser`, are parameters.

Files and modules:

| file | module | contents |
|---|---|---|
| sys.dfy | Sys | `Errno`, `Option`, `Result`, `Outcome` |
| timeval.dfy | Timevals | `Timeval`, `Total` (the value in microseconds), `Fix`, `Add`, `Sub`, `Less`/`Greater` (timercmp), `IsSet` (timerisset) |
| carith.dfy | CArith | C's truncating `/` and `%` |
| itimer.dfy | ITimers | `ItimerFix`, `ItimerDecr`, repeated decrement and the no-drift theorem |
| realtimer.dfy | RealTimer | `RealItExpire` and the closed form of its catch-up loop |
| itimer_calls.dfy | ITimerCalls | `GetItimer`, `SetItimer` over a process's three timers |
| adjtime.dfy | Slewing | `AdjTime` and slew termination |
| settime.dfy | SetTime | `SetTimeOfDay` as written and with the missing range check |

Two points where the code behaves differently from a natural reading,
and the model follows the code:
- `adjtime` uses the larger step only when `ndelta > bigadj`, so a large
  negative request keeps the plain step. `AdjTime` states this, rather
  than a test on the magnitude of the request.
- A time-write under a raised secure level is refused when the new time
  compares earlier field by field with `timercmp`. That is not the same as
  being earlier when the new time is unnormalised (see Findings).

## Model

| member | source | states |
|---|---|---|
| Timevals.Fix | sys/kern/kern_time.c:89-101 | keeps the value in microseconds; moves seconds by at most one; the result is normalised exactly when the microseconds were within one second of range; a normalised value is left alone |
| Timevals.FixStep | sys/kern/kern_time.c:93-100 | which step is taken: negative microseconds borrow exactly one second, even when that does not bring them into range; otherwise exactly one second is carried when they are 1000000 or more, and nothing changes when they are in range |
| Timevals.Add | sys/kern/kern_time.c:427-434 | the result's value is the sum of the operands' values; normalised operands give a normalised sum |
| Timevals.Sub | sys/kern/kern_time.c:420-443 | the result's value is the difference; for normalised operands it is normalised, and its seconds are negative exactly when the first operand is the earlier |
| Timevals.NormalizedUnique | sys/kern/kern_time.c:89-101 | two normalised timevals with the same value are equal, so a normalised result is determined by its value |
| Timevals.CompareByTotal | sys/kern/kern_time.c:268-272 | on normalised values the field-wise timercmp `<` and `>` agree with comparing the values |
| Timevals.SubAddInverse | sys/kern/kern_time.c:427-443 | for normalised values, subtracting what was added and adding what was subtracted both give back the original |
| CArith.Div | sys/kern/kern_time.c:199 | C division by a positive divisor rounds toward zero: quotient times divisor lies between 0 and the dividend, less than one divisor away |
| CArith.Rem | sys/kern/kern_time.c:215-216 | C remainder: quotient times divisor plus remainder is the dividend, and the remainder has the dividend's sign and is smaller than the divisor |
| ITimers.ItimerFix | sys/kern/kern_time.c:364-375 | EINVAL exactly when seconds are negative or above 100000000 or microseconds are outside [0, 1000000); otherwise an in-range result whose value is one tick when the input was nonzero but under a tick, and the input's value otherwise; zero stays zero |
| ITimers.ItimerFixIdempotent | sys/kern/kern_time.c:358-375 | applying itimerfix to its own result changes nothing |
| ITimers.ItimerDecr | sys/kern/kern_time.c:377-418 | returns 1 exactly when more than `usec` was left, and then leaves a normalised value exactly `usec` smaller; on expiry returns 0 and clears a one-shot timer, or reloads a periodic one with the interval minus the overshoot `usec - old value`; the interval never changes |
| ITimers.DecrementAll | sys/kern/kern_time.c:377-386 | a periodic timer decremented by steps no longer than its interval stays running with a normalised, non-negative value and an unchanged interval; the result also counts the expiries |
| ITimers.NoDrift | sys/kern/kern_time.c:377-418 | over any split of elapsed time into ticks: time left plus time elapsed equals the starting value plus one interval per expiry, and the time left stays positive and no larger than the start value or the interval |
| RealTimer.CatchUpLeast | sys/kern/kern_time.c:344-355 | any k ≥ 1 that puts the deadline past the current time, with k = 1 or the previous multiple not past it, equals the closed form `CatchUp` |
| RealTimer.RealItExpire | sys/kern/kern_time.c:323-356 | for any clock and any deadline (the interval being one `itimerfix` accepted): exactly one alarm per call; a one-shot timer's deadline is cleared and nothing is rescheduled; a periodic one's new deadline is the old one advanced by k intervals, one `timevaladd` at a time, for the least k ≥ 1 whose deadline compares (`timercmp`) strictly after the clock, it is rescheduled and the interval is kept; its value is the old one plus k intervals; a normalised old deadline gives a normalised new one; when the clock is normalised too, k is also the least k ≥ 1 putting the value strictly after the current time (so new − interval ≤ time unless k = 1), given in closed form by `CatchUp` |
| RealTimer.LateExpiry | sys/kern/kern_time.c:344-355 | with the deadline at s seconds, a 1 s interval and the clock at (s + 3, −2000000), i.e. s + 1 seconds, the second deadline s + 2 already lies after the clock but does not compare after it, and the rescheduled deadline (s + 3, 0) lies two seconds past the clock: one whole period late |
| ITimerCalls.GetItimer | sys/kern/kern_time.c:244-279 | EINVAL exactly for a kind above ITIMER_PROF; the interval is always returned as stored; virtual and profiling timers are returned verbatim; an unset real deadline reads as zero |
| ITimerCalls.RealTimeLeft | sys/kern/kern_time.c:260-273 | the real timer's reported value is normalised and equals max(0, deadline − time) |
| ITimerCalls.FixBoth | sys/kern/kern_time.c:307-308 | a setting is refused with EINVAL exactly when itimerfix rejects either of its fields; an accepted one has both fields in range, each with the value itimerfix gives it: one tick for a nonzero field under a tick, its own value otherwise |
| ITimerCalls.Install | sys/kern/kern_time.c:309-319 | a nonzero real value is stored as the deadline time + value, with the callout scheduled for it, and the deadline is normalised when the value and the clock are; a zero real value stores zero and cancels the callout; virtual and profiling settings are stored as given; no other timer changes |
| ITimerCalls.SetItimer | sys/kern/kern_time.c:281-321 | EINVAL exactly for an unknown kind or a setting itimerfix rejects, and then nothing changes; the old setting is reported, as getitimer reads it, exactly when asked for and the kind is valid, even if the new setting is refused; without a new setting nothing changes; otherwise the fixed setting is installed |
| ITimerCalls.SetThenGet | sys/kern/kern_time.c:223-243 | on a normalised clock at or after the epoch, reading a timer at the instant it was set returns the itimerfix-ed setting: the absolute deadline converts back to the relative value |
| ITimerCalls.RoundTripLost | sys/kern/kern_time.c:265-273 | for every s and every setting of u microseconds (at least a tick, under a second; any interval itimerfix keeps as it is): on the unnormalised clock (s + 2, −2000000), i.e. s seconds, the call succeeds and stores the deadline (s + 1, u − 1000000), u microseconds ahead, yet the timer reads back as zero (s = 99, u = 500000: clock (101, −2000000), deadline (100, −500000)) |
| ITimerCalls.RoundTripLostBeforeEpoch | sys/kern/kern_time.c:309-314 | for every setting of u microseconds (at least a tick, under a second; any interval itimerfix keeps as it is): at the clock (−1, 1000000 − u) the call succeeds but the deadline is (0, 0), which is stored as "no timer" and reads back as zero (u = 500000: half a second set at (−1, 500000)) |
| Slewing.OldDelta | sys/kern/kern_time.c:214-216 | the previous correction split into seconds and microseconds denotes the same value, with both fields carrying its sign and microseconds under one second |
| Slewing.AdjTime | sys/kern/kern_time.c:178-219 | a caller who is not the superuser gets EPERM and nothing changes; otherwise the step is 10·tickadj exactly when the request exceeds 1000000 µs and tickadj otherwise; the stored correction is the request rounded toward zero to a multiple of the step (no larger in magnitude, same sign, less than one step away); the per-tick step carries the correction's sign; the previous correction is returned exactly when the caller asks for it |
| Slewing.SlewReachesZero | sys/kern/kern_time.c:186-191 | taking the per-tick step off the stored correction \|timedelta\|/\|tickdelta\| times reaches exactly zero |
| Slewing.SlewNoOvershoot | sys/kern/kern_time.c:201-204 | before that many ticks the correction left is nonzero and keeps its sign, so the slew never overshoots |
| SetTime.SetTimeOfDay | sys/kern/kern_time.c:103-157 | EPERM exactly when the caller is not the superuser, even for a timezone-only call, or when the secure level is raised and the new time compares earlier; then nothing changes; on success the time becomes the new value, the boot-time and run-time origins shift so that time − boottime and time − runtime are kept, the timezone is stored only when given, and a valid clock stays valid when the new time is normalised |
| SetTime.SecureLevelBypass | sys/kern/kern_time.c:128-142 | with the secure level raised, time (100, 0) can be set to (101, −2000000): the call succeeds, the clock goes back one second and is left unnormalised |
| SetTime.SetTimeOfDayChecked | sys/kern/kern_time.c:121-156 | with the microseconds of the new time range-checked (EINVAL): every success keeps a valid clock valid, and under a raised secure level the time never goes back; otherwise as SetTimeOfDay |

## Findings

| source | as written | input that shows it | evidently intended | confidence | as-written member | corrected member |
|---|---|---|---|---|---|---|
| sys/kern/kern_time.c:122-142 | `settimeofday` never range-checks `tv_usec`. Its secure-level test uses the field-wise `timercmp`, which ranks a larger seconds field as later whatever the microseconds are. | time (100, 0), securelevel 1, new time (101, −2000000). The call succeeds and sets the clock back to 99 s, unnormalised. | Refuse microseconds outside [0, 1000000) with EINVAL, so that a raised secure level forbids setting the clock back and the clock stays normalised. | medium; not executed | SetTime.SecureLevelBypass | SetTime.SetTimeOfDayChecked |
| sys/kern/kern_time.c:344-355 | `realitexpire` compares the advanced deadline with the clock field-wise (`timercmp`), which is the time order only when both are normalised. | Deadline (98, 0), interval (1, 0), clock (101, −2000000) as the secure-level finding leaves it, i.e. 99 s. The loop passes over (100, 0) and reschedules at (101, 0), one period late. | Reschedule at the first deadline strictly after the clock's time, which the field-wise test gives once `settimeofday` keeps the clock normalised. | low; not executed | RealTimer.LateExpiry | RealTimer.RealItExpire |
| sys/kern/kern_time.c:265-273 | `getitimer` decides whether the real deadline has passed with the field-wise `timercmp`, which is the time order only when the deadline and the clock are normalised. | Clock (101, −2000000), i.e. 99 s, as the secure-level finding leaves it; `setitimer` of (0, 500000) stores the deadline (100, −500000), i.e. 99.5 s; `getitimer` at once reads the time left as zero instead of half a second. | Reading a timer at the instant it was set gives back what was set, which holds once `settimeofday` keeps the clock normalised. | low; not executed | ITimerCalls.RoundTripLost | ITimerCalls.SetThenGet |

## Left out

- `gettimeofday`, and every `copyin`/`copyout`: these copy user memory. System-call inputs are optional values, and copy errors are not modelled.
- `splclock`, `splsoftclock` and `splx`: each call is one atomic step of a pure function, taken against one reading of the clock `time`. This is stronger than the source in two places: `RealItExpire`'s whole catch-up loop is one step, although `realitexpire` lets interrupts in between passes (line 354), and all of `SetTimeOfDay` is one step, although `settimeofday` drops to `splsoftclock` (line 143) before moving the origins.
- `timeout`, `untimeout` and `hzto`: the callout scheduler. A process's pending real-timer callout is recorded only as the deadline in `Proc.callout`, and `RealItExpire` returns the deadline to reschedule.
- `psignal`: the SIGALRM is counted in `Expired.alarms`.
- `suser`, `securelevel`, `tick` and `tickadj` are parameters. `microtime`, `resettodr` and the NFS `lease_updatetime` are hardware or external hooks and are left out.
- The clock interrupt (`hardclock`) is not part of this model. Its use of the slew pair is modelled as `SlewAfter`, as the comments at lines 186-191 and 201-204 describe it. Its calls to `itimerdecr` are modelled as `DecrementAll`.
- Fixed-width integers: seconds, microseconds and `ndelta` are unbounded, so overflow of `long` and `int`, including in `sec * 1000000 + usec`, is not modelled.
- The effect of a clock jump on a pending real-timer callout (line 137) is left open by the source and is not modelled.
- ITimers.ItimerDecr: requires a normalised, non-negative time left. Callers only pass timers that itimerfix accepted.
- ITimers.NoDrift: stated only for a running periodic timer whose interval is at least every step, which is how the clock interrupt uses it with steps of one tick. One-shot timers are covered by `ItimerDecr` alone.
- RealTimer.RealItExpire: requires a normalised, non-negative interval, because `setitimer` stores only intervals that itimerfix accepted (with a negative one the source loop need not end). The time-order statements (least k by value, the closed form `CatchUp`, a normalised result) are given only for a normalised clock and deadline; for any other clock the least k is stated by `timercmp`, which is what the source tests, and `LateExpiry` shows how the two differ.
- ITimerCalls.SetThenGet: proved only for a normalised clock at or after the epoch. On an unnormalised clock the field-wise comparison in getitimer can read a future deadline as passed (`RoundTripLost`), and before the epoch a deadline can be exactly (0, 0), which reads as no timer (`RoundTripLostBeforeEpoch`).
- ITimerCalls.GetItimer: the time left for a set real timer is stated in `RealTimeLeft`, for a normalised deadline and time.
- SetTime.SetTimeOfDay: preserves validity only when the new time is normalised. This is the behaviour reported under Findings.

=== FILE: adjtime.dfy ===
/** Clock slewing: the adjtime system call, which installs a correction
    for the clock interrupt to apply a little per tick, and the per-tick
    consumption of that correction. */
module Slewing {
  import opened Sys
  import opened Timevals
  import opened CArith

  /** Above this many microseconds the larger per-tick step is used. */
  const BigAdj: int := 1000000

  /** The slew state: `timedelta` is the correction not yet applied, in
      microseconds; `tickdelta` the signed amount applied per tick. */
  datatype Slew = Slew(timedelta: int, tickdelta: int)

  /** A slew state the clock interrupt can run to completion: a nonzero
      step of the correction's sign that divides the correction. */
  predicate Consistent(s: Slew) {
    && s.tickdelta != 0
    && s.timedelta % Abs(s.tickdelta) == 0
    && (s.tickdelta < 0 <==> s.timedelta < 0)
  }

  /** The old correction as a timeval, split with C's truncating division:
      both fields carry its sign. */
  function OldDelta(odelta: int): (r: Timeval)
    ensures Total(r) == odelta
    ensures -1000000 < r.usec < 1000000
    ensures odelta >= 0 ==> r.sec >= 0 && r.usec >= 0
    ensures odelta <= 0 ==> r.sec <= 0 && r.usec <= 0
  {
    Timeval(Div(odelta, 1000000), Rem(odelta, 1000000))
  }

  /** adjtime: EPERM for a caller who is not the superuser, with nothing
      changed. Otherwise the request is taken as `sec * 1000000 + usec`,
      the step is ten times `tickadj` when that exceeds BigAdj (a large
      negative request keeps the plain step), the correction is rounded
      toward zero to a multiple of the step, the step takes the sign of
      the rounded correction, and the previous correction is returned
      when it is asked for. */
  function AdjTime(s: Slew, superuser: bool, delta: Timeval, wantOld: bool, tickadj: int)
    : (r: Outcome<Slew, Option<Timeval>>)
    requires tickadj > 0
    ensures !superuser ==> r.errno == Some(EPERM) && r.state == s && r.out == None
    ensures superuser ==> r.errno == None && (r.out.Some? <==> wantOld)
    ensures r.out.Some? ==> r.out.value == OldDelta(s.timedelta)
    ensures superuser ==> (Abs(r.state.tickdelta) == 10 * tickadj <==> Total(delta) > BigAdj)
    ensures superuser ==> Abs(r.state.tickdelta) == tickadj || Abs(r.state.tickdelta) == 10 * tickadj
    ensures superuser ==> Consistent(r.state)
    ensures superuser ==>
      && Abs(r.state.timedelta) <= Abs(Total(delta))
      && Abs(Total(delta) - r.state.timedelta) < Abs(r.state.tickdelta)
      && (r.state.timedelta > 0 ==> Total(delta) > 0)
      && (r.state.timedelta < 0 ==> Total(delta) < 0)
  {
    if !superuser then
      Outcome(Some(EPERM), s, None)
    else
      var ndelta := delta.sec * 1000000 + delta.usec;
      var step := if ndelta > BigAdj then 10 * tickadj else tickadj;
      var rounded := if Rem(ndelta, step) != 0 then Div(ndelta, step) * step else ndelta;
      assert rounded == Div(ndelta, step) * step;
      MulDivCancel(Div(ndelta, step), step);
      var signed := if rounded < 0 then -step else step;
      Outcome(None, Slew(rounded, signed), if wantOld then Some(OldDelta(s.timedelta)) else None)
  }

  /** The clock interrupt's use of the slew state over n ticks: while a
      correction is outstanding, each tick applies tickdelta and takes it
      off the correction. */
  function SlewAfter(s: Slew, n: nat): Slew
    decreases n
  {
    if n == 0 || s.timedelta == 0 then s
    else SlewAfter(Slew(s.timedelta - s.tickdelta, s.tickdelta), n - 1)
  }

  /** Number of ticks a consistent slew state needs. */
  function TicksNeeded(s: Slew): nat
    requires Consistent(s)
  {
    Abs(s.timedelta) / Abs(s.tickdelta)
  }

  /** A consistent correction is used up exactly: after TicksNeeded ticks
      nothing is left, with the step unchanged. */
  lemma {:induction false} SlewReachesZero(s: Slew)
    requires Consistent(s)
    ensures SlewAfter(s, TicksNeeded(s)) == Slew(0, s.tickdelta)
    decreases TicksNeeded(s)
  {
    if s.timedelta != 0 {
      var s' := Slew(s.timedelta - s.tickdelta, s.tickdelta);
      StepConsistent(s);
      if s'.timedelta != 0 {
        SlewReachesZero(s');
      }
    }
  }

  /** No overshoot: before the last needed tick the correction left is
      nonzero and has the sign of the original. */
  lemma {:induction false} SlewNoOvershoot(s: Slew, m: nat)
    requires Consistent(s)
    requires m < TicksNeeded(s)
    ensures SlewAfter(s, m).timedelta != 0
    ensures SlewAfter(s, m).timedelta < 0 <==> s.timedelta < 0
    decreases m
  {
    if m > 0 {
      var s' := Slew(s.timedelta - s.tickdelta, s.tickdelta);
      StepConsistent(s);
      SlewNoOvershoot(s', m - 1);
    }
  }

  /** One tick of a consistent, outstanding correction leaves either
      nothing, when one tick was needed, or a consistent state of the same
      sign needing one tick fewer. */
  lemma StepConsistent(s: Slew)
    requires Consistent(s) && s.timedelta != 0
    ensures var s' := Slew(s.timedelta - s.tickdelta, s.tickdelta);
      && TicksNeeded(s) >= 1
      && (s'.timedelta == 0 <==> TicksNeeded(s) == 1)
      && (s'.timedelta != 0 ==> Consistent(s') && TicksNeeded(s') == TicksNeeded(s) - 1)
  {
    var b := Abs(s.tickdelta);
    var n := s.timedelta / b;
    assert s.timedelta == n * b;
    MulSign(n, b);
    if s.timedelta > 0 {
      StepDown(n, b);
    } else {
      StepDown(-n, b);
      assert s.timedelta == -((-n) * b);
      assert s.timedelta - s.tickdelta == -((-n - 1) * b);
      NegatedMultiple(-n - 1, b);
    }
  }

  /** Taking one b off n whole b's, n >= 1, leaves n - 1 of them. */
  lemma StepDown(n: int, b: int)
    requires n >= 1 && b > 0
    ensures (n * b) / b == n
    ensures n * b - b == (n - 1) * b
    ensures (n - 1) * b % b == 0 && ((n - 1) * b) / b == n - 1
    ensures n * b - b == 0 <==> n == 1
    ensures n * b - b >= 0
  {
    MulDivCancel(n, b);
    MulDivCancel(n - 1, b);
    MulSign(n - 1, b);
  }

  /** The negation of a multiple of b is a multiple of b. */
  lemma NegatedMultiple(k: int, b: int)
    requires b > 0
    ensures (-(k * b)) % b == 0
  {
    assert -(k * b) == (-k) * b;
    MulDivCancel(-k, b);
  }
}

=== FILE: carith.dfy ===
/** C's integer division and remainder, which truncate toward zero (Dafny's
    own `/` and `%` are Euclidean; only positive divisors occur in the
    modelled code), and the facts about multiples the proofs need. */
module CArith {

  function Abs(x: int): nat {
    if x < 0 then -x else x
  }

  /** C `a / b` for b > 0: the quotient rounded toward zero, so q * b lies
      between 0 and a and is less than one divisor away from a. */
  function Div(a: int, b: int): (q: int)
    requires b > 0
    ensures 0 <= a ==> 0 <= q * b <= a < q * b + b
    ensures a < 0 ==> q * b - b < a <= q * b <= 0
  {
    if a >= 0 then
      EuclidBounds(a, b);
      a / b
    else
      EuclidBounds(-a, b);
      assert -((-a) / b) * b == -(((-a) / b) * b);
      -((-a) / b)
  }

  lemma EuclidBounds(x: int, b: int)
    requires x >= 0 && b > 0
    ensures 0 <= (x / b) * b <= x < (x / b) * b + b
  {
  }

  /** C `a % b` for b > 0: the remainder carries the sign of a. */
  function Rem(a: int, b: int): (r: int)
    requires b > 0
    ensures Div(a, b) * b + r == a
    ensures 0 <= a ==> 0 <= r < b
    ensures a < 0 ==> -b < r <= 0
  {
    a - Div(a, b) * b
  }

  /** A nonzero multiple of a positive b is at least b away from zero. */
  lemma MulSign(a: int, b: int)
    requires b > 0
    ensures a >= 1 ==> a * b >= b
    ensures a <= -1 ==> a * b <= -b
    ensures a == 0 <==> a * b == 0
  {
  }

  lemma MulMonotone(a: int, b: int, i: int)
    requires a <= b && i > 0
    ensures a * i <= b * i
  {
  }

  lemma Distribute(k: int, e: int, i: int)
    ensures (k + e) * i == k * i + e * i
  {
  }

  /** Multiplying by a positive b and dividing by it again (Euclidean)
      gives back the factor and leaves no remainder. */
  lemma MulDivCancel(m: int, b: int)
    requires b > 0
    ensures (m * b) / b == m && (m * b) % b == 0
  {
    var q := (m * b) / b;
    var r := (m * b) % b;
    assert m * b == q * b + r;
    assert (m - q) * b == r;
    MulSign(m - q, b);
  }
}

=== FILE: itimer.dfy ===
/** Interval-timer values: the validation applied before a timer is armed
    (itimerfix) and the per-tick countdown of the virtual and profiling
    timers with drift-free reload (itimerdecr). */
module ITimers {
  import opened Sys
  import opened Timevals
  import opened CArith

  /** struct itimerval: time left (or, for the real timer, the absolute
      deadline) and the reload period; a zero interval means one-shot. */
  datatype ITimerVal = ITimerVal(value: Timeval, interval: Timeval)

  /** Largest number of seconds a timer may be set to. */
  const MaxTimerSec: int := 100000000

  /** The range itimerfix accepts. */
  predicate InRange(tv: Timeval) {
    0 <= tv.sec <= MaxTimerSec && Normalized(tv)
  }

  /** itimerfix: EINVAL outside the accepted range; otherwise a nonzero
      value shorter than one clock tick is raised to exactly one tick and
      every other value is kept. Zero stays zero. */
  function ItimerFix(tv: Timeval, tick: int): (r: Result<Timeval>)
    requires 0 < tick < 1000000
    ensures r.Err? <==> tv.sec < 0 || tv.sec > MaxTimerSec || tv.usec < 0 || tv.usec >= 1000000
    ensures r.Err? ==> r.error == EINVAL
    ensures r.Ok? ==> InRange(r.value)
    ensures r.Ok? ==> Total(r.value) == (if 0 < Total(tv) < tick then tick else Total(tv))
    ensures r.Ok? ==> (IsSet(r.value) <==> IsSet(tv))
  {
    if tv.sec < 0 || tv.sec > MaxTimerSec || tv.usec < 0 || tv.usec >= 1000000 then
      Err(EINVAL)
    else if tv.sec == 0 && tv.usec != 0 && tv.usec < tick then
      Ok(Timeval(tv.sec, tick))
    else
      Ok(tv)
  }

  /** itimerfix accepts an in-range value that is zero or at least one
      tick as it is. */
  lemma ItimerFixKeeps(tv: Timeval, tick: int)
    requires 0 < tick < 1000000
    requires InRange(tv) && !(0 < Total(tv) < tick)
    ensures ItimerFix(tv, tick) == Ok(tv)
  {
  }

  /** itimerfix leaves its own results alone. */
  lemma ItimerFixIdempotent(tv: Timeval, tick: int)
    requires 0 < tick < 1000000
    requires ItimerFix(tv, tick).Ok?
    ensures ItimerFix(ItimerFix(tv, tick).value, tick) == ItimerFix(tv, tick)
  {
  }

  /** What itimerdecr leaves behind: the updated timer and its return
      value, 1 while the timer is still running and 0 when it expired. */
  datatype Decremented = Decremented(timer: ITimerVal, ret: int)

  /** itimerdecr: take `usec` (less than a second) off a running timer.
      While more than `usec` is left the timer just counts down. Otherwise
      it has expired: a one-shot timer is cleared, and a periodic one is
      reloaded with its interval shortened by the overshoot (the part of
      `usec` past the expiry point), so that the period does not drift. */
  function ItimerDecr(itv: ITimerVal, usec: int): (r: Decremented)
    requires 0 <= usec < 1000000
    requires Normalized(itv.value) && itv.value.sec >= 0
    ensures r.timer.interval == itv.interval
    ensures r.ret == 0 || r.ret == 1
    ensures r.ret == 1 <==> Total(itv.value) > usec
    ensures r.ret == 1 ==> Normalized(r.timer.value) && Total(r.timer.value) == Total(itv.value) - usec
    ensures r.ret == 0 && !IsSet(itv.interval) ==> r.timer.value == Zero
    ensures r.ret == 0 && IsSet(itv.interval) ==>
      Total(r.timer.value) == Total(itv.interval) - (usec - Total(itv.value))
    ensures r.ret == 0 && Normalized(itv.interval) ==> Normalized(r.timer.value)
  {
    var v := itv.value;
    if v.usec < usec && v.sec == 0 then
      // ran out part-way through this step
      Expire(itv, v, usec - v.usec)
    else
      var borrowed := if v.usec < usec then Timeval(v.sec - 1, v.usec + 1000000) else v;
      var left := Timeval(borrowed.sec, borrowed.usec - usec);
      if IsSet(left) then
        Decremented(ITimerVal(left, itv.interval), 1)
      else
        // ran out exactly at the end of this step
        Expire(itv, left, 0)
  }

  /** The `expire:` tail of itimerdecr: `v` is the value reached, `over`
      the overshoot still to be taken off the reloaded interval. */
  function Expire(itv: ITimerVal, v: Timeval, over: int): Decremented
  {
    if IsSet(itv.interval) then
      var w := Timeval(itv.interval.sec, itv.interval.usec - over);
      var reloaded := if w.usec < 0 then Timeval(w.sec - 1, w.usec + 1000000) else w;
      Decremented(ITimerVal(reloaded, itv.interval), 0)
    else
      Decremented(ITimerVal(Timeval(v.sec, 0), itv.interval), 0)
  }

  /** A periodic timer that is running: a validated, nonzero interval and
      a nonzero, normalised time left. */
  predicate Running(itv: ITimerVal) {
    && Normalized(itv.interval) && IsSet(itv.interval)
    && Normalized(itv.value) && itv.value.sec >= 0 && IsSet(itv.value)
  }

  /** A running periodic timer and the steps it is decremented by: each
      below one second and no longer than the interval. */
  predicate Periodic(itv: ITimerVal, ticks: seq<int>) {
    Running(itv) && forall i :: 0 <= i < |ticks| ==> 0 <= ticks[i] < 1000000 && ticks[i] <= Total(itv.interval)
  }

  function Sum(s: seq<int>): int {
    if |s| == 0 then 0 else s[0] + Sum(s[1..])
  }

  /** One step of a periodic timer by at most its interval leaves a
      running, normalised value: an expiry reloads less than one step short
      of the whole interval. */
  lemma StaysRunning(itv: ITimerVal, usec: int)
    requires Running(itv)
    requires 0 <= usec < 1000000 && usec <= Total(itv.interval)
    ensures Running(ItimerDecr(itv, usec).timer)
    ensures Total(ItimerDecr(itv, usec).timer.value) > 0
  {
    var d := ItimerDecr(itv, usec);
    IsSetByTotal(itv.value);
    IsSetByTotal(itv.interval);
    NonNegativeByTotal(itv.interval);
    assert Total(d.timer.value) > 0;
    IsSetByTotal(d.timer.value);
    NonNegativeByTotal(d.timer.value);
  }

  /** Where a run of decrements leaves a timer: the final timer and how
      many times it expired on the way. */
  datatype Countdown = Countdown(timer: ITimerVal, expiries: nat)

  /** A periodic timer decremented by each of `ticks` in turn, as the
      clock interrupt does once per tick. The timer keeps running
      throughout, since each reload is shortened by less than one whole
      step. */
  function DecrementAll(itv: ITimerVal, ticks: seq<int>): (r: Countdown)
    requires Periodic(itv, ticks)
    ensures r.timer.interval == itv.interval
    ensures Running(r.timer)
    decreases |ticks|
  {
    if |ticks| == 0 then Countdown(itv, 0)
    else
      var d := ItimerDecr(itv, ticks[0]);
      PeriodicTail(itv, ticks);
      var rest := DecrementAll(d.timer, ticks[1..]);
      Countdown(rest.timer, rest.expiries + (1 - d.ret))
  }

  /** No drift: however the elapsed time is split into ticks, the time
      left plus the time elapsed is the starting value plus one whole
      interval per expiry, and the time left never exceeds the larger of
      the starting value and the interval. */
  lemma {:induction false} NoDrift(itv: ITimerVal, ticks: seq<int>)
    requires Periodic(itv, ticks)
    ensures Total(DecrementAll(itv, ticks).timer.value) + Sum(ticks)
         == Total(itv.value) + DecrementAll(itv, ticks).expiries * Total(itv.interval)
    ensures 0 < Total(DecrementAll(itv, ticks).timer.value)
    ensures Total(DecrementAll(itv, ticks).timer.value) <= Total(itv.value)
         || Total(DecrementAll(itv, ticks).timer.value) <= Total(itv.interval)
    decreases |ticks|
  {
    if |ticks| == 0 {
      IsSetByTotal(itv.value);
      NonNegativeByTotal(itv.value);
    } else {
      var d := ItimerDecr(itv, ticks[0]);
      PeriodicTail(itv, ticks);
      var rest := DecrementAll(d.timer, ticks[1..]);
      NoDrift(d.timer, ticks[1..]);
      StepBalance(itv, ticks[0]);
      assert DecrementAll(itv, ticks) == Countdown(rest.timer, rest.expiries + (1 - d.ret));
      assert Sum(ticks) == ticks[0] + Sum(ticks[1..]);
      Distribute(rest.expiries, 1 - d.ret, Total(itv.interval));
    }
  }

  /** One step of NoDrift: the time left plus the step is the old time left,
      plus one interval if the step expired the timer. */
  lemma StepBalance(itv: ITimerVal, usec: int)
    requires Running(itv)
    requires 0 <= usec < 1000000 && usec <= Total(itv.interval)
    ensures var d := ItimerDecr(itv, usec);
      Total(d.timer.value) + usec == Total(itv.value) + (1 - d.ret) * Total(itv.interval)
      && (Total(d.timer.value) <= Total(itv.value) || Total(d.timer.value) <= Total(itv.interval))
  {
    var d := ItimerDecr(itv, usec);
    if d.ret == 1 {
      assert (1 - d.ret) * Total(itv.interval) == 0;
    } else {
      assert (1 - d.ret) * Total(itv.interval) == Total(itv.interval);
    }
  }

  /** After the first step the rest of the steps still meet Periodic. */
  lemma PeriodicTail(itv: ITimerVal, ticks: seq<int>)
    requires Periodic(itv, ticks) && |ticks| > 0
    ensures Periodic(ItimerDecr(itv, ticks[0]).timer, ticks[1..])
  {
    var d := ItimerDecr(itv, ticks[0]);
    StaysRunning(itv, ticks[0]);
    forall i | 0 <= i < |ticks[1..]|
      ensures 0 <= ticks[1..][i] < 1000000 && ticks[1..][i] <= Total(d.timer.interval)
    {
      assert ticks[1..][i] == ticks[i + 1];
    }
  }
}

=== FILE: itimer_calls.dfy ===
/** The getitimer and setitimer system calls over a process's three
    interval timers. The real timer is kept as an absolute deadline and
    handed out as the time left; the virtual and profiling timers are kept
    and handed out as they were set. */
module ITimerCalls {
  import opened Sys
  import opened Timevals
  import opened ITimers

  const ITIMER_REAL: nat := 0
  const ITIMER_VIRTUAL: nat := 1
  const ITIMER_PROF: nat := 2

  /** A process's interval timers. `callout` is the deadline of the pending
      realitexpire callout, if one is scheduled. */
  datatype Proc = Proc(realtimer: ITimerVal, virtual: ITimerVal, prof: ITimerVal, callout: Option<Timeval>)

  /** The stored timer of a valid kind. */
  function Slot(p: Proc, which: nat): ITimerVal
    requires which <= ITIMER_PROF
  {
    if which == ITIMER_REAL then p.realtimer
    else if which == ITIMER_VIRTUAL then p.virtual
    else p.prof
  }

  function Max(a: int, b: int): int {
    if a < b then b else a
  }

  /** getitimer: EINVAL for an unknown kind. For the real timer a passed
      deadline reads as zero and a future one as the time left until it;
      the other kinds, and every interval, are returned as stored. */
  function GetItimer(p: Proc, which: nat, time: Timeval): (r: Result<ITimerVal>)
    ensures r.Err? <==> which > ITIMER_PROF
    ensures r.Err? ==> r.error == EINVAL
    ensures r.Ok? ==> r.value.interval == Slot(p, which).interval
    ensures r.Ok? && which != ITIMER_REAL ==> r.value == Slot(p, which)
    ensures r.Ok? && which == ITIMER_REAL && !IsSet(p.realtimer.value) ==> r.value.value == Zero
  {
    if which > ITIMER_PROF then Err(EINVAL)
    else if which == ITIMER_REAL then
      var aitv := p.realtimer;
      if IsSet(aitv.value) then
        if Less(aitv.value, time) then
          Ok(aitv.(value := Zero))
        else
          Ok(aitv.(value := Sub(aitv.value, time)))
      else
        Ok(aitv)
    else
      Ok(Slot(p, which))
  }

  /** The time left that getitimer reports for a set real timer is the
      distance from now to the deadline, or zero once it has passed. */
  lemma RealTimeLeft(p: Proc, time: Timeval)
    requires IsSet(p.realtimer.value) && Normalized(p.realtimer.value) && Normalized(time)
    ensures Normalized(GetItimer(p, ITIMER_REAL, time).value.value)
    ensures Total(GetItimer(p, ITIMER_REAL, time).value.value) == Max(0, Total(p.realtimer.value) - Total(time))
  {
    CompareByTotal(p.realtimer.value, time);
  }

  /** Both fields of a proposed timer through itimerfix, or EINVAL if
      either is rejected. */
  function FixBoth(a: ITimerVal, tick: int): (r: Result<ITimerVal>)
    requires 0 < tick < 1000000
    ensures r.Err? <==> !(InRange(a.value) && InRange(a.interval))
    ensures r.Err? ==> r.error == EINVAL
    ensures r.Ok? ==> InRange(r.value.value) && InRange(r.value.interval)
    ensures r.Ok? ==> Total(r.value.value) == (if 0 < Total(a.value) < tick then tick else Total(a.value))
    ensures r.Ok? ==> Total(r.value.interval) == (if 0 < Total(a.interval) < tick then tick else Total(a.interval))
  {
    var v := ItimerFix(a.value, tick);
    var i := ItimerFix(a.interval, tick);
    if v.Err? || i.Err? then Err(EINVAL) else Ok(ITimerVal(v.value, i.value))
  }

  /** The store at the end of setitimer, for a validated setting `a`. A
      nonzero real value becomes the absolute deadline `time + value`, for
      which the expiry callout is (re)scheduled; a zero real value clears
      the deadline and cancels the callout; the other kinds are stored as
      given. Only the selected timer changes. */
  function Install(p: Proc, which: nat, a: ITimerVal, time: Timeval): (q: Proc)
    requires which <= ITIMER_PROF
    ensures which == ITIMER_REAL ==>
      && q.virtual == p.virtual && q.prof == p.prof
      && q.realtimer.interval == a.interval
      && (IsSet(a.value) ==>
            && Total(q.realtimer.value) == Total(time) + Total(a.value)
            && (Normalized(a.value) && Normalized(time) ==> Normalized(q.realtimer.value))
            && q.callout == Some(q.realtimer.value))
      && (!IsSet(a.value) ==> q.realtimer.value == Zero && q.callout == None)
    ensures which != ITIMER_REAL ==>
      && q.realtimer == p.realtimer && q.callout == p.callout
      && Slot(q, which) == a
      && (which == ITIMER_VIRTUAL ==> q.prof == p.prof)
      && (which == ITIMER_PROF ==> q.virtual == p.virtual)
  {
    if which == ITIMER_REAL then
      // untimeout, then timeout at the new deadline if there is one
      if IsSet(a.value) then
        var deadline := Add(a.value, time);
        p.(realtimer := a.(value := deadline), callout := Some(deadline))
      else
        p.(realtimer := a, callout := None)
    else if which == ITIMER_VIRTUAL then
      p.(virtual := a)
    else
      p.(prof := a)
  }

  /** setitimer: EINVAL for an unknown kind. The old setting, if asked for,
      is read as getitimer reads it before anything else is checked, so it
      is reported even when the new one is then refused. Without a new
      setting nothing changes. A new setting either side of which
      itimerfix rejects gives EINVAL and changes nothing. Otherwise the
      fixed setting is installed. */
  function SetItimer(p: Proc, which: nat, itv: Option<ITimerVal>, wantOld: bool, time: Timeval, tick: int)
    : (r: Outcome<Proc, Option<ITimerVal>>)
    requires 0 < tick < 1000000
    ensures r.errno == None || r.errno == Some(EINVAL)
    ensures r.errno.Some? <==> which > ITIMER_PROF || (itv.Some? && !(InRange(itv.value.value) && InRange(itv.value.interval)))
    ensures r.errno.Some? || itv.None? ==> r.state == p
    ensures r.out.Some? <==> which <= ITIMER_PROF && wantOld
    ensures r.out.Some? ==> Ok(r.out.value) == GetItimer(p, which, time)
    ensures r.errno.None? && itv.Some? ==>
      FixBoth(itv.value, tick).Ok? && r.state == Install(p, which, FixBoth(itv.value, tick).value, time)
  {
    if which > ITIMER_PROF then Outcome(Some(EINVAL), p, None)
    else
      var prior := if wantOld then Some(GetItimer(p, which, time).value) else None;
      match itv
      case None => Outcome(None, p, prior)
      case Some(a) =>
        match FixBoth(a, tick)
        case Err(e) => Outcome(Some(e), p, prior)
        case Ok(aitv) => Outcome(None, Install(p, which, aitv, time), prior)
  }

  /** Reading a timer back at the instant it was set gives exactly the
      setting after itimerfix: the real timer's absolute deadline converts
      back to the relative value that was set. */
  lemma SetThenGet(p: Proc, which: nat, a: ITimerVal, time: Timeval, tick: int)
    requires 0 < tick < 1000000
    requires which <= ITIMER_PROF
    requires FixBoth(a, tick).Ok?
    requires Normalized(time) && time.sec >= 0
    ensures GetItimer(SetItimer(p, which, Some(a), false, time, tick).state, which, time)
         == FixBoth(a, tick)
  {
    var fixed := FixBoth(a, tick).value;
    assert SetItimer(p, which, Some(a), false, time, tick).state == Install(p, which, fixed, time);
    if which == ITIMER_REAL && IsSet(fixed.value) {
      CompareByTotal(Add(fixed.value, time), time);
      SubAddInverse(fixed.value, time);
    }
  }

  /** A real setting that itimerfix keeps as it is and whose value is
      nonzero, installed at `time`, stores the deadline value + time. */
  lemma SetRealStores(p: Proc, a: ITimerVal, time: Timeval, tick: int)
    requires 0 < tick < 1000000
    requires InRange(a.value) && IsSet(a.value) && !(0 < Total(a.value) < tick)
    requires InRange(a.interval) && !(0 < Total(a.interval) < tick)
    ensures SetItimer(p, ITIMER_REAL, Some(a), false, time, tick).errno == None
    ensures SetItimer(p, ITIMER_REAL, Some(a), false, time, tick).state.realtimer == a.(value := Add(a.value, time))
  {
    ItimerFixKeeps(a.value, tick);
    ItimerFixKeeps(a.interval, tick);
  }

  /** SetRealStores with the deadline already worked out. */
  lemma SetRealStoresAt(p: Proc, a: ITimerVal, time: Timeval, tick: int, deadline: Timeval)
    requires 0 < tick < 1000000
    requires InRange(a.value) && IsSet(a.value) && !(0 < Total(a.value) < tick)
    requires InRange(a.interval) && !(0 < Total(a.interval) < tick)
    requires Add(a.value, time) == deadline
    ensures SetItimer(p, ITIMER_REAL, Some(a), false, time, tick).errno == None
    ensures SetItimer(p, ITIMER_REAL, Some(a), false, time, tick).state.realtimer == a.(value := deadline)
  {
    SetRealStores(p, a, time, tick);
  }

  /** Less than a second added to a clock two seconds short in its
      microseconds borrows once and stays out of range. */
  lemma BorrowedDeadline(v: Timeval, s: int)
    requires v.sec == 0 && 0 <= v.usec < 1000000
    ensures Add(v, Timeval(s + 2, -2000000)) == Timeval(s + 1, v.usec - 1000000)
  {
    FixStep(Timeval(v.sec + (s + 2), v.usec - 2000000));
  }

  /** Adding the rest of the second to a clock just before the epoch
      carries onto (0, 0). */
  lemma EpochDeadline(v: Timeval)
    requires v.sec == 0 && 0 <= v.usec < 1000000
    ensures Add(v, Timeval(-1, 1000000 - v.usec)) == Zero
  {
    var r := Add(v, Timeval(-1, 1000000 - v.usec));
    assert Total(r) == Total(Zero);
    NormalizedUnique(r, Zero);
  }

  /** The round trip fails on an unnormalised clock, such as settimeofday
      as written can leave: at (s + 2, -2000000), which is s seconds, a real
      timer set to u microseconds (at least a tick, under a second) gets the
      deadline (s + 1, u - 1000000), u microseconds ahead, which compares
      (field-wise) before the clock, so it reads back as zero. With s = 99
      and u = 500000: clock (101, -2000000), deadline (100, -500000). */
  lemma RoundTripLost(p: Proc, a: ITimerVal, s: int, tick: int)
    requires 0 < tick < 1000000
    requires a.value.sec == 0 && tick <= a.value.usec < 1000000
    requires InRange(a.interval) && !(0 < Total(a.interval) < tick)
    ensures var time := Timeval(s + 2, -2000000);
      var r := SetItimer(p, ITIMER_REAL, Some(a), false, time, tick);
      && r.errno == None
      && r.state.realtimer.value == Timeval(s + 1, a.value.usec - 1000000)
      && Total(r.state.realtimer.value) == Total(time) + a.value.usec
      && GetItimer(r.state, ITIMER_REAL, time).value.value == Zero
  {
    var time := Timeval(s + 2, -2000000);
    BorrowedDeadline(a.value, s);
    SetRealStoresAt(p, a, time, tick, Timeval(s + 1, a.value.usec - 1000000));
  }

  /** Before the epoch a deadline can land exactly on (0, 0), which
      timerisset reads as "no timer": a real timer set to u microseconds
      (at least a tick, under a second) at the clock (-1, 1000000 - u)
      reads back as zero (with u = 500000: half a second set at
      (-1, 500000)). */
  lemma RoundTripLostBeforeEpoch(p: Proc, a: ITimerVal, tick: int)
    requires 0 < tick < 1000000
    requires a.value.sec == 0 && tick <= a.value.usec < 1000000
    requires InRange(a.interval) && !(0 < Total(a.interval) < tick)
    ensures var time := Timeval(-1, 1000000 - a.value.usec);
      var r := SetItimer(p, ITIMER_REAL, Some(a), false, time, tick);
      && r.errno == None
      && r.state.realtimer.value == Zero
      && GetItimer(r.state, ITIMER_REAL, time).value.value == Zero
  {
    var time := Timeval(-1, 1000000 - a.value.usec);
    EpochDeadline(a.value);
    SetRealStoresAt(p, a, time, tick, Zero);
  }
}

=== FILE: realtimer.dfy ===
/** Expiry of the real-time interval timer (realitexpire). The real timer's
    value is an absolute deadline; when the callout fires late, every
    period missed in the meantime is folded into one alarm. */
module RealTimer {
  import opened Sys
  import opened Timevals
  import opened ITimers
  import opened CArith

  /** How many whole intervals of length i must be added to deadline d,
      and at least one, to get past time t. */
  function CatchUp(d: int, i: int, t: int): (k: int)
    requires i > 0
  {
    if d > t then 1 else (t - d) / i + 1
  }

  /** CatchUp is the least k >= 1 that puts d + k * i past t. */
  lemma CatchUpLeast(d: int, i: int, t: int, k: int)
    requires i > 0 && k >= 1
    requires d + k * i > t
    requires k == 1 || d + (k - 1) * i <= t
    ensures k == CatchUp(d, i, t)
  {
    if d > t {
      if k > 1 {
        MulSign(k - 1, i);
      }
    } else {
      var q := (t - d) / i;
      assert t - d == q * i + (t - d) % i;
      if k - 1 < q {
        MulMonotone(k, q, i);
      } else if k - 1 > q {
        MulMonotone(q + 1, k - 1, i);
      }
    }
  }

  /** A deadline pushed on by k intervals, one timevaladd at a time. */
  function Advance(v: Timeval, i: Timeval, k: nat): Timeval
    decreases k
  {
    if k == 0 then v else Add(Advance(v, i, k - 1), i)
  }

  /** How far the microseconds of v lie outside [0, 1000000). */
  function OutOfRange(v: Timeval): nat {
    if v.usec < 0 then -v.usec
    else if v.usec >= 1000000 then v.usec - 1000000 + 1
    else 0
  }

  /** Adding a normalised interval brings an unnormalised deadline closer
      to range and keeps a normalised one normalised. */
  lemma AddNearsRange(v: Timeval, i: Timeval)
    requires Normalized(i)
    ensures OutOfRange(Add(v, i)) < OutOfRange(v) || OutOfRange(Add(v, i)) == 0 == OutOfRange(v)
  {
  }

  /** A normalised deadline not after `time` is less than one second past
      the start of time's second. */
  lemma NotAfterBound(v: Timeval, time: Timeval)
    requires Normalized(v) && !Greater(v, time)
    ensures Total(v) < time.sec * 1000000 + 1000000
  {
    if v.sec < time.sec {
      assert Total(v) < (v.sec + 1) * 1000000 <= time.sec * 1000000;
    }
  }

  /** What the expiry callout leaves behind. */
  datatype Expired = Expired(timer: ITimerVal, alarms: nat, next: Option<Timeval>)

  /** realitexpire: post exactly one SIGALRM. A one-shot timer is cleared
      and not rescheduled. A periodic one has its deadline pushed on by
      whole intervals, one timevaladd at a time and at least once, until it
      compares (timercmp) strictly after `time`; that deadline is
      rescheduled. All periods missed by a late callout are thus compressed
      into the one alarm. When the clock and the old deadline are
      normalised, the new deadline is also the least whole number of
      periods past the current time, given in closed form by CatchUp. */
  method RealItExpire(rt: ITimerVal, time: Timeval) returns (r: Expired, ghost periods: nat)
    requires Normalized(rt.interval) && rt.interval.sec >= 0
    ensures r.alarms == 1
    ensures r.timer.interval == rt.interval
    ensures !IsSet(rt.interval) ==> r.timer.value == Zero && r.next == None
    ensures IsSet(rt.interval) ==>
      && r.next == Some(r.timer.value)
      && periods >= 1
      && r.timer.value == Advance(rt.value, rt.interval, periods)
      && Greater(r.timer.value, time)
      && (forall j :: 1 <= j < periods ==> !Greater(Advance(rt.value, rt.interval, j), time))
      && Total(r.timer.value) == Total(rt.value) + periods * Total(rt.interval)
    ensures IsSet(rt.interval) && Normalized(rt.value) ==> Normalized(r.timer.value)
    ensures IsSet(rt.interval) && Normalized(rt.value) && Normalized(time) ==>
      && (periods == 1 || Total(r.timer.value) - Total(rt.interval) <= Total(time))
      && Total(rt.interval) > 0
      && periods == CatchUp(Total(rt.value), Total(rt.interval), Total(time))
  {
    // psignal(p, SIGALRM)
    var alarms := 1;
    if !IsSet(rt.interval) {
      r := Expired(ITimerVal(Zero, rt.interval), alarms, None);
      periods := 0;
      return;
    }
    IsSetByTotal(rt.interval);
    NonNegativeByTotal(rt.interval);
    var deadline := Add(rt.value, rt.interval);
    periods := 1;
    while !Greater(deadline, time)
      invariant periods >= 1
      invariant deadline == Advance(rt.value, rt.interval, periods)
      invariant forall j :: 1 <= j < periods ==> !Greater(Advance(rt.value, rt.interval, j), time)
      invariant Total(deadline) == Total(rt.value) + periods * Total(rt.interval)
      invariant Normalized(rt.value) ==> Normalized(deadline)
      invariant Normalized(rt.value) && Normalized(time) ==>
        periods == 1 || Total(deadline) - Total(rt.interval) <= Total(time)
      decreases OutOfRange(deadline), time.sec * 1000000 + 1000000 - Total(deadline)
    {
      if Normalized(deadline) {
        NotAfterBound(deadline, time);
        if Normalized(time) {
          CompareByTotal(deadline, time);
        }
      }
      AddNearsRange(deadline, rt.interval);
      deadline := Add(deadline, rt.interval);
      periods := periods + 1;
    }
    if Normalized(rt.value) && Normalized(time) {
      CompareByTotal(deadline, time);
      CatchUpLeast(Total(rt.value), Total(rt.interval), Total(time), periods);
    }
    r := Expired(ITimerVal(deadline, rt.interval), alarms, Some(deadline));
  }

  /** Whole seconds advanced by whole seconds stay whole. */
  lemma {:induction false} AdvanceWholeSeconds(s: int, n: int, k: nat)
    ensures Advance(Timeval(s, 0), Timeval(n, 0), k) == Timeval(s + k * n, 0)
  {
    if k > 0 {
      AdvanceWholeSeconds(s, n, k - 1);
    }
  }

  /** On an unnormalised clock (as settimeofday as written can leave it)
      the field-wise comparison ends the catch-up a whole period late:
      from a deadline at s seconds with a 1 s interval and the clock at
      (s + 3, -2000000), which is s + 1 seconds, the deadlines s + 1 and
      s + 2 compare as not after the clock although s + 2 is, and the first
      that compares after it is (s + 3, 0), two seconds past the clock
      (for s = 98: clock 99 s, rescheduled at 101 s rather than 100 s). */
  lemma LateExpiry(s: int)
    ensures !Greater(Advance(Timeval(s, 0), Timeval(1, 0), 1), Timeval(s + 3, -2000000))
    ensures !Greater(Advance(Timeval(s, 0), Timeval(1, 0), 2), Timeval(s + 3, -2000000))
    ensures Total(Advance(Timeval(s, 0), Timeval(1, 0), 2)) > Total(Timeval(s + 3, -2000000))
    ensures Greater(Advance(Timeval(s, 0), Timeval(1, 0), 3), Timeval(s + 3, -2000000))
    ensures Total(Advance(Timeval(s, 0), Timeval(1, 0), 3)) == Total(Timeval(s + 3, -2000000)) + 2000000
  {
    AdvanceWholeSeconds(s, 1, 1);
    AdvanceWholeSeconds(s, 1, 2);
    AdvanceWholeSeconds(s, 1, 3);
  }
}

=== FILE: settime.dfy ===
/** Setting the time of day (settimeofday): a privileged jump of the clock
    that moves the boot-time and run-time origins along with it. */
module SetTime {
  import opened Sys
  import opened Timevals

  /** struct timezone. */
  datatype Timezone = Timezone(minuteswest: int, dsttime: int)

  /** The system-wide clock: the time of day, the boot time, the run-time
      origin and the timezone. */
  datatype Clock = Clock(time: Timeval, boottime: Timeval, runtime: Timeval, tz: Timezone)

  predicate Valid(c: Clock) {
    Normalized(c.time) && Normalized(c.boottime) && Normalized(c.runtime)
  }

  /** The clock after the time has been set to `atv`: the origins move by
      the same (unnormalised) difference, each passed through timevaladd
      and then timevalfix once more. */
  function Jump(c: Clock, atv: Timeval): Clock {
    var delta := Timeval(atv.sec - c.time.sec, atv.usec - c.time.usec);
    c.(time := atv,
       boottime := Fix(Add(c.boottime, delta)),
       runtime := Fix(Add(c.runtime, delta)))
  }

  /** settimeofday as written: EPERM for a caller who is not the
      superuser, even when only the timezone is given; EPERM when the
      secure level is raised and the new time compares earlier than the
      current one. Both leave the clock as it was. Otherwise a new time
      replaces the current one and the boot-time and run-time origins move
      with it, so the time since boot and since the run-time origin are
      kept; a given timezone is stored. The new time's microseconds are
      not checked. */
  function SetTimeOfDay(c: Clock, superuser: bool, securelevel: int, tv: Option<Timeval>, tzp: Option<Timezone>)
    : (r: Outcome<Clock, ()>)
    ensures r.errno == None || r.errno == Some(EPERM)
    ensures r.errno.Some? <==> !superuser || (tv.Some? && securelevel > 0 && Less(tv.value, c.time))
    ensures r.errno.Some? ==> r.state == c
    ensures r.errno.None? ==> r.state.tz == (if tzp.Some? then tzp.value else c.tz)
    ensures r.errno.None? && tv.None? ==>
      r.state.time == c.time && r.state.boottime == c.boottime && r.state.runtime == c.runtime
    ensures r.errno.None? && tv.Some? ==>
      && r.state.time == tv.value
      && Total(r.state.time) - Total(r.state.boottime) == Total(c.time) - Total(c.boottime)
      && Total(r.state.time) - Total(r.state.runtime) == Total(c.time) - Total(c.runtime)
    ensures r.errno.None? && Valid(c) && (tv.Some? ==> Normalized(tv.value)) ==> Valid(r.state)
  {
    if !superuser then
      Outcome(Some(EPERM), c, ())
    else if tv.Some? && securelevel > 0 && Less(tv.value, c.time) then
      Outcome(Some(EPERM), c, ())
    else
      var c1 := if tv.Some? then Jump(c, tv.value) else c;
      var c2 := if tzp.Some? then c1.(tz := tzp.value) else c1;
      Outcome(None, c2, ())
  }

  /** Under a raised secure level settimeofday as written still lets the
      clock be set back: an out-of-range microseconds field with a larger
      seconds field passes the field-wise comparison, yet denotes an
      earlier time, and leaves the clock unnormalised. */
  lemma SecureLevelBypass()
    ensures var r := SetTimeOfDay(BypassClock, true, 1, Some(Timeval(101, -2000000)), None);
      r.errno == None && Total(r.state.time) < Total(BypassClock.time) && !Valid(r.state)
  {
  }

  /** The clock of SecureLevelBypass: 100 seconds past the epoch. */
  const BypassClock: Clock := Clock(Timeval(100, 0), Zero, Zero, Timezone(0, 0))

  /** settimeofday with the microseconds of a new time checked (EINVAL
      outside [0, 1000000)) after the privilege check and before anything
      else. On a valid clock every success keeps it valid, and under a
      raised secure level the time never goes back. */
  function SetTimeOfDayChecked(c: Clock, superuser: bool, securelevel: int, tv: Option<Timeval>, tzp: Option<Timezone>)
    : (r: Outcome<Clock, ()>)
    ensures r.errno.Some? ==> r.state == c
    ensures r.errno == Some(EINVAL) <==> superuser && tv.Some? && !Normalized(tv.value)
    ensures r.errno == Some(EPERM) <==>
      !superuser || (tv.Some? && Normalized(tv.value) && securelevel > 0 && Less(tv.value, c.time))
    ensures r.errno.None? ==> r.state.tz == (if tzp.Some? then tzp.value else c.tz)
    ensures r.errno.None? && tv.Some? ==>
      && r.state.time == tv.value
      && Total(r.state.time) - Total(r.state.boottime) == Total(c.time) - Total(c.boottime)
      && Total(r.state.time) - Total(r.state.runtime) == Total(c.time) - Total(c.runtime)
    ensures r.errno.None? && Valid(c) ==> Valid(r.state)
    ensures r.errno.None? && Valid(c) && securelevel > 0 ==> Total(r.state.time) >= Total(c.time)
  {
    if superuser && tv.Some? && !Normalized(tv.value) then
      Outcome(Some(EINVAL), c, ())
    else
      if tv.Some? && Valid(c) && Normalized(tv.value) then
        CompareByTotal(tv.value, c.time);
        SetTimeOfDay(c, superuser, securelevel, tv, tzp)
      else
        SetTimeOfDay(c, superuser, securelevel, tv, tzp)
  }
}

=== FILE: sys.dfy ===
/** Error codes and result wrappers shared by the system-call models. */
module Sys {

  /** The two error numbers the time-of-day and interval-timer calls return. */
  datatype Errno = EPERM | EINVAL

  datatype Option<+T> = None | Some(value: T)

  datatype Result<+T> = Ok(value: T) | Err(error: Errno)

  /** What a state-changing system call hands back: the error it returned
      (None for success), the state after the call, and its output value. */
  datatype Outcome<S, O> = Outcome(errno: Option<Errno>, state: S, out: O)
}

=== FILE: timeval.dfy ===
/** Seconds/microseconds pairs (struct timeval) and the helpers that add,
    subtract, normalise and compare them. */
module Timevals {

  /** A struct timeval. Neither field is constrained: the kernel stores
      whatever arithmetic or a caller produces, and `Normalized` says when
      the microseconds are in range. */
  datatype Timeval = Timeval(sec: int, usec: int)

  /** The value a timeval denotes, in microseconds. */
  function Total(t: Timeval): int {
    t.sec * 1000000 + t.usec
  }

  predicate Normalized(t: Timeval) {
    0 <= t.usec < 1000000
  }

  const Zero: Timeval := Timeval(0, 0)

  /** timerisset: not both fields zero. */
  predicate IsSet(t: Timeval) {
    t.sec != 0 || t.usec != 0
  }

  /** timercmp(a, b, <): seconds first, microseconds on a tie. */
  predicate Less(a: Timeval, b: Timeval) {
    if a.sec == b.sec then a.usec < b.usec else a.sec < b.sec
  }

  /** timercmp(a, b, >). */
  predicate Greater(a: Timeval, b: Timeval) {
    if a.sec == b.sec then a.usec > b.usec else a.sec > b.sec
  }

  /** timevalfix: at most one borrow and at most one carry. The value is
      kept, and the result is in range exactly when the microseconds were
      off by less than one second. */
  function Fix(t: Timeval): (r: Timeval)
    ensures Total(r) == Total(t)
    ensures t.sec - 1 <= r.sec <= t.sec + 1
    ensures Normalized(r) <==> -1000000 <= t.usec < 2000000
    ensures Normalized(t) ==> r == t
  {
    var t1 := if t.usec < 0 then Timeval(t.sec - 1, t.usec + 1000000) else t;
    if t1.usec >= 1000000 then Timeval(t1.sec + 1, t1.usec - 1000000) else t1
  }

  /** Which step timevalfix takes: a negative microseconds field borrows
      exactly once, even when one borrow does not bring it into range;
      otherwise one carry is made exactly when it is 1000000 or more. With
      the value kept, this fixes the result for every input. */
  lemma FixStep(t: Timeval)
    ensures t.usec < 0 ==> Fix(t) == Timeval(t.sec - 1, t.usec + 1000000)
    ensures 0 <= t.usec < 1000000 ==> Fix(t) == t
    ensures 1000000 <= t.usec ==> Fix(t) == Timeval(t.sec + 1, t.usec - 1000000)
  {
  }

  /** timevaladd. */
  function Add(a: Timeval, b: Timeval): (r: Timeval)
    ensures Total(r) == Total(a) + Total(b)
    ensures Normalized(r) <==> -1000000 <= a.usec + b.usec < 2000000
    ensures Normalized(a) && Normalized(b) ==> Normalized(r)
  {
    Fix(Timeval(a.sec + b.sec, a.usec + b.usec))
  }

  /** timevalsub. When a is earlier than b the result is still in range but
      has negative seconds. */
  function Sub(a: Timeval, b: Timeval): (r: Timeval)
    ensures Total(r) == Total(a) - Total(b)
    ensures Normalized(r) <==> -1000000 <= a.usec - b.usec < 2000000
    ensures Normalized(a) && Normalized(b) ==> Normalized(r) && (r.sec < 0 <==> Total(a) < Total(b))
  {
    Fix(Timeval(a.sec - b.sec, a.usec - b.usec))
  }

  /** A value has exactly one normalised representation. */
  lemma NormalizedUnique(a: Timeval, b: Timeval)
    requires Normalized(a) && Normalized(b)
    requires Total(a) == Total(b)
    ensures a == b
  {
  }

  /** On normalised values the field-wise comparisons agree with the
      values' order. */
  lemma CompareByTotal(a: Timeval, b: Timeval)
    requires Normalized(a) && Normalized(b)
    ensures Less(a, b) <==> Total(a) < Total(b)
    ensures Greater(a, b) <==> Total(a) > Total(b)
  {
  }

  /** On a normalised value timerisset means "nonzero". */
  lemma IsSetByTotal(t: Timeval)
    requires Normalized(t)
    ensures IsSet(t) <==> Total(t) != 0
  {
  }

  /** A normalised value is non-negative exactly when its seconds are. */
  lemma NonNegativeByTotal(t: Timeval)
    requires Normalized(t)
    ensures t.sec >= 0 <==> Total(t) >= 0
  {
  }

  /** Subtracting what was added gives back the original, and adding back
      what was subtracted does too. */
  lemma SubAddInverse(a: Timeval, b: Timeval)
    requires Normalized(a) && Normalized(b)
    ensures Sub(Add(a, b), b) == a
    ensures Add(Sub(a, b), b) == a
  {
  }
}
